=== FILE: README.md ===
# Vision AI: offline cache layer and upload helpers, in Dafny

This project models two pieces of sequential decision logic of a small image-analysis web app
(a Flask back end calling the Gemini API, plus a progressive-web-app front end).

**The service worker** (`static/service-worker.js`) owns one versioned cache generation,
`vision-ai-cache-v1.2`, and an app-shell manifest of eight URLs. Its three event handlers are
modelled as pure transitions of the browser's Cache Storage, with the network's answer passed in:

- `install` opens the cache, runs `addAll` on the shell (all or nothing) and asks for
  `skipWaiting` on success; a failure is caught and leaves the opened cache as it was;
- `activate` deletes every cache whose name is not the current one;
- `fetch` sends non-GET requests straight to the network, serves navigations network-first
  with the cached root page as fallback, and serves every other GET cache-first, storing a
  missed response in the current cache when it is `ok` and its URL starts with the origin or
  contains `cdnjs` or `gstatic`.

Cache Storage is a map from cache name to a map from URL to response, together with the
creation order of the caches: `caches.match` searches every cache, not just the current one,
in that order, and the model keeps that (`CacheStorage.Match`). The Cache API's own rules
that the handlers rely on are kept too: `addAll` rejects when any fetch fails or any response is
not ok or is 206 Partial Content; `put` rejects a 206 response, so a 206 from an allowed URL
passes the handler's `ok` test but is never stored; `caches.open` appends a new empty cache.

**The Flask helpers** (`app.py`) are string rules: the upload extension whitelist
`allowed_file`, the rejection order and saved-name derivation of `process_uploaded_image`,
the three-way outcome of `safe_get_gemini_response`, and the choice of translation text in
`analyze_image`.

Files: `optional.dfy` (Option), `text.dfy` (prefix, substring, `rsplit`, ASCII `lower`, Python
`strip`), `cache_storage.dfy` (the Cache API contract), `service_worker.dfy` (the handlers and
their lifecycle properties), `uploads.dfy` and `analysis.dfy` (the `app.py` helpers).

Details of the code that the model keeps, which a reader might not expect:
- a navigation whose network fails and finds no cached root page gets a network error, because
  `caches.match` resolves to `undefined`;
- the fallback lookup `caches.match('/')` is not restricted to the worker's own cache but
  searches all caches in creation order; only the activate handler's deletion of older
  generations makes it a lookup in the current one
  (`ServiceWorker.StaleGenerationAnswersFallback`, `ServiceWorker.ActivatedMatchIsOwnCache`);
- the allow-list is a prefix test plus two substring tests, not a set of origin patterns
  (`ServiceWorker.AllowListAdmitsLookalikes`);
- a failed install leaves an opened, possibly new and empty, cache behind, and the error is
  swallowed rather than reported, so the worker still activates; after a failed first install
  an offline navigation gets a network error (`ServiceWorker.FailedFirstInstallHasNoFallback`).

## Model

| member | source | states |
|---|---|---|
| Text.StartsWith | static/service-worker.js:92 | definition of JavaScript `startsWith` (and Python `startswith`, app.py:151): the pattern is the text's prefix of its length |
| Text.Includes | static/service-worker.js:92 | definition of JavaScript `includes` as a left-to-right scan (empty pattern included); characterised by `Text.IncludesIffOccurs` |
| Text.IncludesIffOccurs | static/service-worker.js:92 | `includes` is true exactly when the pattern occurs at some offset of the URL |
| Text.LastIndex | app.py:46-47 | the position of the last dot, absent exactly when there is no dot; the dot found there has no dot after it |
| Text.RSplitOnce | app.py:57 | `rsplit('.', 1)` yields the whole name when there is no dot, else a head and a dot-free tail that rejoin to the name |
| Text.RSplitOnceOfJoin | app.py:57 | splitting `head + "." + tail` with a dot-free tail gives back exactly `[head, tail]` |
| Text.AfterLast | app.py:61-62 | `rsplit('.', 1)[1]` of a name with a dot: a dot-free suffix directly preceded by a dot; empty when there is no dot |
| Text.Lower | app.py:47 | ASCII `lower()`: same length, each upper-case letter becomes the lower-case letter at the same place in the alphabet, no upper-case letter is left, every other character unchanged |
| Text.LowerIdempotent | app.py:47 | lower-casing a lower-cased text changes nothing |
| Text.IsSpace | app.py:92 | definition of CPython's `str.isspace` table for one character: tab to carriage return, the separators U+001C to U+001F, space, U+0085, U+00A0, U+1680, U+2000 to U+200A, U+2028, U+2029, U+202F, U+205F and U+3000 |
| Text.TrimStart | app.py:92 | the leading-whitespace half of `strip()`: a suffix of the text, everything cut off is whitespace, and its first character is not whitespace |
| Text.TrimEnd | app.py:92 | the trailing-whitespace half of `strip()`: a prefix of the text, everything cut off is whitespace, and its last character is not whitespace |
| Text.Strip | app.py:92 | the result of `strip()` neither starts nor ends with a whitespace character (CPython's whitespace set) and is no longer than the text |
| Text.StripRemovesOnlyWhitespace | app.py:92 | `strip()` returns a slice of the text and everything cut off on either side is whitespace |
| Text.StripIdempotent | app.py:92 | stripping a stripped text changes nothing |
| CacheStorage.Open | static/service-worker.js:23 | `caches.open` makes the cache exist; a new one is empty and appended last to the cache list; opening an existing one changes nothing; no other cache changes |
| CacheStorage.OpenKeepsMatch | static/service-worker.js:23 | opening a cache never changes what `caches.match` returns |
| CacheStorage.PutAccepts | static/service-worker.js:94 | definition of what `put` accepts: every response except 206 Partial Content |
| CacheStorage.Put | static/service-worker.js:94 | `put` stores the entry under the URL, keeps every other entry of every cache, and rejects only a 206 response |
| CacheStorage.PutLastWriteWins | static/service-worker.js:94 | a second `put` to the same URL overrides the first entirely |
| CacheStorage.Delete | static/service-worker.js:49 | `caches.delete` removes that cache and its name from the cache list, keeps the other names in their order, and keeps the other caches' contents |
| CacheStorage.DeleteKeepsMatch | static/service-worker.js:49 | deleting a cache that does not hold a URL changes no `caches.match` answer for it |
| CacheStorage.Match | static/service-worker.js:68-75 | definition of `caches.match` as the search over every cache in creation order; characterised by `CacheStorage.MatchIn` and `CacheStorage.MatchMissIffAbsent` |
| CacheStorage.MatchIn | static/service-worker.js:75 | the search returns the entry of the first cache, in list order, that holds the URL, and misses only when none does |
| CacheStorage.MatchMissIffAbsent | static/service-worker.js:75 | `caches.match` misses exactly when no cache at all holds the URL |
| CacheStorage.MatchHitIsStored | static/service-worker.js:85 | a hit is an entry actually stored in some cache |
| CacheStorage.MatchInSoleCache | static/service-worker.js:68 | with only one cache left, `caches.match` is a lookup in that cache |
| CacheStorage.MatchOnlyHolder | static/service-worker.js:75 | a URL held by a single cache is answered with that cache's entry |
| CacheStorage.AddAllAccepts | static/service-worker.js:28 | definition of what `addAll` accepts for one URL: a delivered response that is ok (200 to 299) and not 206 |
| CacheStorage.AddAll | static/service-worker.js:28 | `addAll` succeeds exactly when every fetch gives an ok, non-206 response, then stores every URL with its response and keeps other entries; otherwise nothing is stored |
| ServiceWorker.RootUrl | static/service-worker.js:6 | definition of the root page `'/'` resolved against the worker's origin, the key that `caches.match('/')` on line 68 looks up |
| ServiceWorker.UrlsToCache | static/service-worker.js:2-17 | the cache name `vision-ai-cache-v1.2` and the eight shell URLs, the root page first; the six same-origin entries all start with the origin |
| ServiceWorker.InstallShell | static/service-worker.js:20-37 | the cache is always opened; `skipWaiting` is requested exactly when every shell fetch is acceptable, and then every shell URL maps to its response and the key set is the old one plus the shell; on failure the cache is as before; no other cache changes |
| ServiceWorker.Install | static/service-worker.js:5-37 | installing the worker's own manifest keeps the storage consistent, and a successful install has stored the root page `/` with the response the network gave for it |
| ServiceWorker.ReinstallKeepsKeys | static/service-worker.js:22-28 | installing the same shell again after a successful install leaves the cache's key set unchanged, whatever the network answers |
| ServiceWorker.FailedInstallKeepsServing | static/service-worker.js:34-36 | a failed install changes no `caches.match` answer |
| ServiceWorker.DeleteStale | static/service-worker.js:46-51 | deleting over a list of names removes exactly the listed caches other than the current one and keeps the contents of the rest |
| ServiceWorker.Activate | static/service-worker.js:41-52 | after activation only the current cache can remain, it remains exactly when it existed, and its contents are unchanged |
| ServiceWorker.ActivatedMatchIsOwnCache | static/service-worker.js:44-52 | after activation `caches.match` answers from the current cache only |
| ServiceWorker.FromNetwork | static/service-worker.js:108 | definition of `respondWith(fetch(..))`: a delivered response is the answer, a rejected fetch a network error |
| ServiceWorker.FromCache | static/service-worker.js:68 | definition of `respondWith` on a `caches.match` result: a hit is the answer, `undefined` a network error |
| ServiceWorker.AllowListed | static/service-worker.js:92 | definition of the allow-list test; characterised by `ServiceWorker.AllowListedIff` |
| ServiceWorker.ShouldPopulate | static/service-worker.js:92 | definition of the guard of the opportunistic write: an ok response from an allow-listed URL |
| ServiceWorker.AllowListedIff | static/service-worker.js:92 | a URL is allow-listed exactly when it starts with the origin or contains `cdnjs` or `gstatic` at some offset |
| ServiceWorker.AllowListAdmitsLookalikes | static/service-worker.js:92 | any URL merely containing `cdnjs` or `gstatic`, or extending the origin string, is allow-listed |
| ServiceWorker.Populate | static/service-worker.js:93-94 | the opportunistic write (re)creates the current cache, last in the cache list when it is new, stores the response under the URL unless `put` rejects it, and touches no other key or cache |
| ServiceWorker.PopulateKeepsOtherMatches | static/service-worker.js:93-94 | the opportunistic write changes no other URL's `caches.match` answer |
| ServiceWorker.HandleFetch | static/service-worker.js:61-110 | non-GET: network result, storage untouched; navigation: network response, or the root page from any cache on failure, never a write; other GET: a hit answered without the network; a miss answered with the network response, the opportunistic write done exactly when the response is ok and allow-listed, and the URL then holding the response exactly when it is also not 206, nothing otherwise; a network failure gives a network error with no write |
| ServiceWorker.FetchKeepsOtherMatches | static/service-worker.js:61-110 | handling any request leaves every other URL's `caches.match` answer as it was |
| ServiceWorker.PopulatedAssetServedFromCache | static/service-worker.js:75-96 | an asset stored after a miss is answered from the cache on the next request whatever the network does |
| ServiceWorker.InstalledShellServedOffline | static/service-worker.js:20-86 | after a successful install and activation, offline, every shell URL and every navigation are answered from the cache, and URLs only older generations held miss |
| ServiceWorker.WorkerShellServedOffline | static/service-worker.js:5-86 | with the worker's own manifest, after a successful install and activation an offline navigation is answered with the installed root page |
| ServiceWorker.FailedInstallThenActivate | static/service-worker.js:20-52 | the `addAll` error is swallowed, so after a failed install and the activation `caches.match` answers exactly from what the worker's own cache held before, and never from an older generation |
| ServiceWorker.FailedFirstInstallHasNoFallback | static/service-worker.js:20-70 | after a failed first install and the activation, an offline navigation gets a network error |
| ServiceWorker.StaleGenerationAnswersFallback | static/service-worker.js:68 | the fallback `caches.match('/')` searches every cache in creation order: on a storage listing an older generation first, its root page is the answer rather than the current cache's |
| Uploads.AllowedFile | app.py:44-47 | definition of `allowed_file`; characterised by `Uploads.AllowedFileIff` and `Uploads.OnlyLastSegmentMatters` |
| Uploads.OnlyLastSegmentMatters | app.py:44-47 | for `head + "." + ext` with a dot-free `ext`, `allowed_file` depends only on lower-cased `ext` being whitelisted |
| Uploads.AllowedFileIff | app.py:44-47 | `allowed_file` holds exactly when some dot is followed by a dot-free text whose lower-cased form is png, jpg, jpeg, gif or webp |
| Uploads.ProcessUploadedImage | app.py:49-66 | a missing or empty name raises "No image selected" first; else a name `allowed_file` refuses raises "Invalid file type"; "Could not determine file extension" is never raised; every accepted upload gets a saved name, which `allowed_file` accepts too |
| Uploads.SavedNameShape | app.py:57-66 | the saved name of `base.ext` is `secure_filename(base) + "_" + uuid + "." + lower(ext)` |
| Analysis.HasContent | app.py:91 | definition of the test `response.candidates and response.candidates[0].content.parts`: a first candidate with at least one part |
| Analysis.Usable | app.py:91-92 | definition of a readable reply: it has content and its `text` accessor does not raise |
| Analysis.SafeGetGeminiResponse | app.py:88-103 | a reply whose first candidate has parts and whose text can be read gives that text stripped; every other reply gives a message starting with "Error:" naming the block reason, an empty reply, or an unreadable one; the result is never padded with whitespace |
| Analysis.DecideTranslation | app.py:150-160 | translate exactly when the text is non-empty, not "No text found." and not an "Error:" message; "No text found." alone gives "No text to translate."; exactly the empty text and "Error:" messages give the extraction-error message |
| Analysis.TranslatedText | app.py:150-160 | a non-empty extracted text that is neither "No text found." nor an "Error:" message gives the translation reply read by `safe_get_gemini_response`; "No text found." gives "No text to translate."; an empty text or an "Error:" message gives the extraction-error message |
| Analysis.TranslationOnlyWhenTranslating | app.py:151-155 | the translation reply has no influence unless a translation is asked for |
| Analysis.ExtractionDecidesTranslation | app.py:147-160 | an unreadable or whitespace-only extraction reply is reported as an extraction error; a translation happens exactly when the stripped extracted text is non-empty, not "No text found." and not an "Error:" message |

## Left out

- Promise sequencing, `event.waitUntil`, `respondWith` plumbing, `self.clients.claim()` and `console` logging: each handler is one atomic transition, and concurrent requests are not interleaved.
- Request options beyond the URL, the method and a navigation flag (`cache: 'reload'`, `mode` values other than `navigate`), and `Vary`-based matching: cache keys are absolute URL strings, and URL parsing is reduced to appending the manifest's paths to the origin.
- The commented-out stale-while-revalidate and offline image placeholder code of the service worker: it is commented out, so it is not part of the behaviour.
- The fire-and-forget `put` after a miss is modelled as completed within the same transition; a failure of `caches.open` or of the storage backend is not modelled.
- `addAll`'s rejection of duplicate requests in one batch: the shell list has none.
- Response headers, bodies as streams, `clone()`, opaque-response padding and redirects: a response is a status and a body.
- Flask routing, `jsonify`, status codes, saving and removing the upload, PIL image opening and conversion in `app.py`: I/O and foreign libraries; the model stops at the saved file name.
- `secure_filename` and `uuid.uuid4()`: passed in as a function and a string.
- The Gemini API calls and configuration: a reply is an abstract record of candidates with parts, the value of its `text` accessor (absent when it raises), and an optional block reason already rendered as text; only the `text` accessor is modelled as raising.
- The exact wording of "Invalid file type. Allowed: ...": it lists a Python set in its iteration order; errors are modelled as values.
- Uploads.ProcessUploadedImage: Python's `lower()` is modelled on ASCII letters only; for whether an extension is whitelisted this is exact, but a non-ASCII name is not lower-cased the way Python would.
- `static/js/script.js`: camera, tabs, clipboard, speech and calls to the back end; its text checks repeat the server rule.

=== FILE: analysis.dfy ===
/**
 How the Flask back end turns a Gemini reply into text (`safe_get_gemini_response`) and how
 `analyze_image` decides what to report as the translation of the extracted text.
 */
module Analysis {
  import opened Optional
  import opened Text

  /** One candidate answer: the texts of its content parts. */
  datatype Candidate = Candidate(parts: seq<string>)

  /** The prompt feedback; `blockReason` is `None` when no (truthy) block reason is set. */
  datatype PromptFeedback = PromptFeedback(blockReason: Option<string>)

  /**
   The shape of a Gemini reply. `text` is what the reply's `text` accessor yields, `None`
   when that accessor raises.
   */
  datatype GeminiResponse = GeminiResponse(
    candidates: seq<Candidate>,
    text: Option<string>,
    promptFeedback: Option<PromptFeedback>)

  /** The first candidate exists and has at least one part. */
  predicate HasContent(resp: GeminiResponse) {
    |resp.candidates| > 0 && |resp.candidates[0].parts| > 0
  }

  /** The reply is usable text: there is content and reading it does not raise. */
  predicate Usable(resp: GeminiResponse) {
    HasContent(resp) && resp.text.Some?
  }

  /** The prefix every failure message of the reply reader starts with. */
  const ErrorTag: string := "Error:"

  const IncompleteReply: string := ErrorTag + " Received an empty or incomplete response from the model."
  const UnprocessableReply: string := ErrorTag + " Could not process the model's response."

  function BlockedReply(reason: string): string {
    ErrorTag + " Content blocked by safety settings (" + reason + ")."
  }

  /**
   `safe_get_gemini_response`: the stripped text of a usable reply; otherwise a message that
   starts with "Error:" and says whether the prompt was blocked, the reply was empty, or its
   text could not be read. Either way the result carries no surrounding whitespace.
   */
  function SafeGetGeminiResponse(resp: GeminiResponse): (r: string)
    ensures Usable(resp) ==> r == Strip(resp.text.value)
    ensures !Usable(resp) ==> StartsWith(r, ErrorTag)
    ensures !HasContent(resp) && resp.promptFeedback.Some? && resp.promptFeedback.value.blockReason.Some? ==>
              r == BlockedReply(resp.promptFeedback.value.blockReason.value)
    ensures !HasContent(resp) && (resp.promptFeedback.None? || resp.promptFeedback.value.blockReason.None?) ==>
              r == IncompleteReply
    ensures HasContent(resp) && resp.text.None? ==> r == UnprocessableReply
    ensures Strip(r) == r
  {
    if HasContent(resp) then
      match resp.text
      case Some(t) =>
        StripIdempotent(t);
        Strip(t)
      case None =>
        ErrorMessageIsTrimmed(" Could not process the model's response.");
        UnprocessableReply
    else
      match resp.promptFeedback
      case Some(PromptFeedback(Some(reason))) =>
        ErrorMessageIsTrimmed(" Content blocked by safety settings (" + reason + ").");
        BlockedReply(reason)
      case _ =>
        ErrorMessageIsTrimmed(" Received an empty or incomplete response from the model.");
        IncompleteReply
  }

  /** A failure message ending in `.` is unchanged by stripping. */
  lemma ErrorMessageIsTrimmed(detail: string)
    requires |detail| > 0 && detail[|detail| - 1] == '.'
    ensures Strip(ErrorTag + detail) == ErrorTag + detail
  {
    var m := ErrorTag + detail;
    assert m[0] == 'E' && m[|m| - 1] == '.';
    StripKeepsTrimmed(m);
  }

  const NoTextFound: string := "No text found."

  /** What `analyze_image` does with the extracted text. */
  datatype TranslationStep =
    | Translate           // ask the text model for a translation
    | NothingToTranslate  // "No text to translate."
    | ExtractionFailed    // "Translation not possible due to extraction error."

  /**
   Non-empty text that is not the "no text" answer and not an error message is translated;
   the "no text" answer is reported as such; empty text and error messages are failures.
   */
  function DecideTranslation(extracted: string): (d: TranslationStep)
    ensures d == Translate <==> extracted != "" && extracted != NoTextFound && !StartsWith(extracted, ErrorTag)
    ensures d == NothingToTranslate <==> extracted == NoTextFound
    ensures d == ExtractionFailed <==> extracted == "" || StartsWith(extracted, ErrorTag)
  {
    assert NoTextFound[..6] != ErrorTag by {
      assert NoTextFound[0] == 'N';
    }
    if extracted != "" && extracted != NoTextFound && !StartsWith(extracted, ErrorTag) then Translate
    else if extracted == NoTextFound then NothingToTranslate
    else ExtractionFailed
  }

  const NoTextToTranslate: string := "No text to translate."
  const TranslationImpossible: string := "Translation not possible due to extraction error."

  /**
   The `translated_text` field: the text model's reply, read like any other reply, when the
   extracted text is non-empty, not the "no text" answer and not an error message; the "no
   text" answer alone gives "No text to translate.", and an empty text or an error message
   gives the extraction-error message.
   */
  function TranslatedText(extracted: string, translation: GeminiResponse): (t: string)
    ensures extracted != "" && extracted != NoTextFound && !StartsWith(extracted, ErrorTag) ==>
              t == SafeGetGeminiResponse(translation)
    ensures extracted == NoTextFound ==> t == NoTextToTranslate
    ensures extracted == "" || StartsWith(extracted, ErrorTag) ==> t == TranslationImpossible
  {
    match DecideTranslation(extracted)
    case Translate => SafeGetGeminiResponse(translation)
    case NothingToTranslate => NoTextToTranslate
    case ExtractionFailed => TranslationImpossible
  }

  /** The translation reply is only consulted when a translation is asked for. */
  lemma TranslationOnlyWhenTranslating(extracted: string, one: GeminiResponse, other: GeminiResponse)
    requires DecideTranslation(extracted) != Translate
    ensures TranslatedText(extracted, one) == TranslatedText(extracted, other)
  {
  }

  /**
   Chained with `safe_get_gemini_response`: an unusable extraction reply, or one whose text is
   only whitespace, is never translated and is reported as an extraction error; a usable one
   is translated exactly when its stripped text is neither empty, nor the "no text" answer,
   nor starts with "Error:".
   */
  lemma ExtractionDecidesTranslation(extraction: GeminiResponse, translation: GeminiResponse)
    ensures !Usable(extraction) ==>
              TranslatedText(SafeGetGeminiResponse(extraction), translation) == TranslationImpossible
    ensures Usable(extraction) && Strip(extraction.text.value) == "" ==>
              TranslatedText(SafeGetGeminiResponse(extraction), translation) == TranslationImpossible
    ensures DecideTranslation(SafeGetGeminiResponse(extraction)) == Translate <==>
              && Usable(extraction)
              && Strip(extraction.text.value) != ""
              && Strip(extraction.text.value) != NoTextFound
              && !StartsWith(Strip(extraction.text.value), ErrorTag)
  {
  }
}

=== FILE: cache_storage.dfy ===
/**
 The browser's Cache Storage as the service worker sees it: named caches, each mapping a request
 URL to a stored response. `order` is the cache list in creation order, which is the order in
 which `caches.keys()` reports names and `caches.match` searches them.
 */
module CacheStorage {
  import opened Optional

  /** A response: its HTTP status and its body. An opaque cross-origin response has status 0. */
  datatype Response = Response(status: int, body: string) {

    /** The Fetch standard's `ok`: an ok status is in 200..299. */
    predicate Ok() {
      200 <= status <= 299
    }
  }

  /** One cache: request URL to stored response. */
  type Partition = map<string, Response>

  datatype Storage = Storage(order: seq<string>, caches: map<string, Partition>)

  predicate Distinct(xs: seq<string>) {
    forall i, j :: 0 <= i < j < |xs| ==> xs[i] != xs[j]
  }

  /** The cache list names every cache exactly once. */
  predicate Valid(s: Storage) {
    && Distinct(s.order)
    && (forall i :: 0 <= i < |s.order| ==> s.order[i] in s.caches)
    && (forall n :: n in s.caches ==> n in s.order)
  }

  /** `cache.match(url)` on the single cache `name` (a miss when there is no such cache). */
  function Lookup(s: Storage, name: string, url: string): Option<Response> {
    if name in s.caches && url in s.caches[name] then Some(s.caches[name][url]) else None
  }

  /** Two storages agree on every cache other than `name`: same names, same contents. */
  ghost predicate SameExcept(s: Storage, s': Storage, name: string) {
    forall n :: n != name ==>
      (n in s'.caches <==> n in s.caches) && (n in s.caches ==> s'.caches[n] == s.caches[n])
  }

  /**
   `caches.open(name)`: the cache `name` exists afterwards; a new one is empty and is appended
   to the cache list; nothing else changes.
   */
  function Open(s: Storage, name: string): (s': Storage)
    ensures name in s'.caches
    ensures s'.caches.Keys == s.caches.Keys + {name}
    ensures SameExcept(s, s', name)
    ensures name in s.caches ==> s'.caches[name] == s.caches[name]
    ensures name !in s.caches ==> s'.caches[name] == map[]
    ensures name !in s.caches ==> s'.order == s.order + [name]
    ensures name in s.caches ==> s' == s
    ensures Valid(s) ==> Valid(s')
  {
    if name in s.caches then s
    else Storage(s.order + [name], s.caches[name := map[]])
  }

  /** `cache.put` refuses a 206 Partial Content response and accepts every other one. */
  predicate PutAccepts(resp: Response) {
    resp.status != 206
  }

  /**
   `cache.put(url, resp)` on the open cache `name`: the new entry replaces any earlier one
   (last write wins) and every other entry of every cache is kept. A rejected put changes
   nothing, which `None` reports.
   */
  function Put(s: Storage, name: string, url: string, resp: Response): (r: Option<Storage>)
    requires name in s.caches
    ensures r.Some? <==> PutAccepts(resp)
    ensures r.Some? ==> r.value.order == s.order && r.value.caches.Keys == s.caches.Keys
    ensures r.Some? ==> Lookup(r.value, name, url) == Some(resp)
    ensures r.Some? ==> forall n, k :: (n != name || k != url) ==> Lookup(r.value, n, k) == Lookup(s, n, k)
    ensures r.Some? ==> SameExcept(s, r.value, name)
    ensures r.Some? && Valid(s) ==> Valid(r.value)
  {
    if !PutAccepts(resp) then None
    else Some(Storage(s.order, s.caches[name := s.caches[name][url := resp]]))
  }

  /** A second put to the same key simply overrides the first one. */
  lemma PutLastWriteWins(s: Storage, name: string, url: string, first: Response, second: Response)
    requires name in s.caches && PutAccepts(first) && PutAccepts(second)
    ensures Put(Put(s, name, url, first).value, name, url, second) == Put(s, name, url, second)
  {
    var s1 := Put(s, name, url, first).value;
    assert s1.caches[name][url := second] == s.caches[name][url := second];
    assert s1.caches[name := s.caches[name][url := second]] == s.caches[name := s.caches[name][url := second]];
  }

  /** `xs` without the element `x`, in the original order. */
  function Without(xs: seq<string>, x: string): (r: seq<string>)
    ensures forall y :: y in r <==> y in xs && y != x
    ensures Distinct(xs) ==> Distinct(r)
    decreases |xs|
  {
    if |xs| == 0 then []
    else if xs[0] == x then Without(xs[1..], x)
    else
      var rest := Without(xs[1..], x);
      assert Distinct(xs) ==> xs[0] !in xs[1..] by {
        if Distinct(xs) {
          forall k | 0 <= k < |xs[1..]| ensures xs[1..][k] != xs[0] {
            assert xs[1..][k] == xs[k + 1];
          }
        }
      }
      assert Distinct(xs) ==> Distinct(xs[1..]) by {
        if Distinct(xs) {
          forall i, j | 0 <= i < j < |xs[1..]| ensures xs[1..][i] != xs[1..][j] {
            assert xs[1..][i] == xs[i + 1] && xs[1..][j] == xs[j + 1];
          }
        }
      }
      [xs[0]] + rest
  }

  /**
   `caches.delete(name)`: the cache and its entries are gone and it leaves the cache list;
   every other cache is kept, in its place in the list.
   */
  function Delete(s: Storage, name: string): (s': Storage)
    ensures s'.order == Without(s.order, name)
    ensures s'.caches.Keys == s.caches.Keys - {name}
    ensures SameExcept(s, s', name)
    ensures Valid(s) ==> Valid(s')
  {
    var order := Without(s.order, name);
    assert forall i :: 0 <= i < |order| ==> order[i] in order;
    Storage(order, s.caches - {name})
  }

  /** `cache.match` over the caches `names`, in that order: the first hit wins. */
  function MatchIn(s: Storage, names: seq<string>, url: string): (r: Option<Response>)
    ensures r.None? <==> forall i :: 0 <= i < |names| ==> Lookup(s, names[i], url).None?
    ensures r.Some? ==> exists i :: 0 <= i < |names| && Lookup(s, names[i], url) == r &&
                          forall j :: 0 <= j < i ==> Lookup(s, names[j], url).None?
    decreases |names|
  {
    if |names| == 0 then None
    else if Lookup(s, names[0], url).Some? then
      var r := Lookup(s, names[0], url);
      assert 0 < |names| && Lookup(s, names[0], url) == r;
      r
    else
      var r := MatchIn(s, names[1..], url);
      assert forall i :: 0 <= i < |names[1..]| ==> names[1..][i] == names[i + 1];
      if r.Some? then
        var i :| 0 <= i < |names[1..]| && Lookup(s, names[1..][i], url) == r &&
                 forall j :: 0 <= j < i ==> Lookup(s, names[1..][j], url).None?;
        assert Lookup(s, names[i + 1], url) == r;
        assert forall j :: 0 <= j < i + 1 ==> Lookup(s, names[j], url).None? by {
          forall j | 0 <= j < i + 1 ensures Lookup(s, names[j], url).None? {
            if j > 0 {
              assert names[j] == names[1..][j - 1];
            }
          }
        }
        r
      else
        r
  }

  /** `caches.match(url)`: searches every cache, in creation order. */
  function Match(s: Storage, url: string): Option<Response> {
    MatchIn(s, s.order, url)
  }

  /** Searching one more cache that misses changes nothing. */
  lemma {:induction false} MatchInAppendMiss(s: Storage, names: seq<string>, extra: string, url: string)
    requires Lookup(s, extra, url).None?
    ensures MatchIn(s, names + [extra], url) == MatchIn(s, names, url)
    decreases |names|
  {
    if |names| > 0 {
      assert (names + [extra])[1..] == names[1..] + [extra];
      MatchInAppendMiss(s, names[1..], extra, url);
    }
  }

  /** The search only depends on what each searched cache holds for `url`. */
  lemma {:induction false} MatchInSameLookups(s: Storage, s': Storage, names: seq<string>, url: string)
    requires forall i :: 0 <= i < |names| ==> Lookup(s, names[i], url) == Lookup(s', names[i], url)
    ensures MatchIn(s, names, url) == MatchIn(s', names, url)
    decreases |names|
  {
    if |names| > 0 {
      assert forall i :: 0 <= i < |names[1..]| ==> names[1..][i] == names[i + 1];
      MatchInSameLookups(s, s', names[1..], url);
    }
  }

  /** Leaving out of the search a cache that misses changes nothing. */
  lemma {:induction false} MatchInWithoutMiss(s: Storage, names: seq<string>, gone: string, url: string)
    requires Lookup(s, gone, url).None?
    ensures MatchIn(s, Without(names, gone), url) == MatchIn(s, names, url)
    decreases |names|
  {
    if |names| > 0 {
      MatchInWithoutMiss(s, names[1..], gone, url);
      if names[0] != gone {
        assert (Without(names, gone))[1..] == Without(names[1..], gone);
      }
    }
  }

  /** Deleting a cache that does not hold `url` does not change what `caches.match` finds for it. */
  lemma DeleteKeepsMatch(s: Storage, name: string, url: string)
    requires Lookup(s, name, url).None?
    ensures Match(Delete(s, name), url) == Match(s, url)
  {
    var s' := Delete(s, name);
    MatchInWithoutMiss(s, s.order, name, url);
    assert forall n :: n in s'.caches ==> n in s.caches && s'.caches[n] == s.caches[n];
    MatchInSameLookups(s, s', s'.order, url);
  }

  /** Opening a cache never changes what `caches.match` finds: a new cache starts empty. */
  lemma OpenKeepsMatch(s: Storage, name: string, url: string)
    ensures Match(Open(s, name), url) == Match(s, url)
  {
    var s' := Open(s, name);
    if name !in s.caches {
      MatchInAppendMiss(s', s.order, name, url);
      MatchInSameLookups(s, s', s.order, url);
    }
  }

  /** On a valid storage, `caches.match` misses exactly when no cache holds `url`. */
  lemma MatchMissIffAbsent(s: Storage, url: string)
    requires Valid(s)
    ensures Match(s, url).None? <==> forall n :: n in s.caches ==> url !in s.caches[n]
  {
    if Match(s, url).None? {
      forall n | n in s.caches ensures url !in s.caches[n] {
        var i :| 0 <= i < |s.order| && s.order[i] == n;
        assert Lookup(s, s.order[i], url).None?;
      }
    }
  }

  /** A hit of `caches.match` is the entry of some cache that holds `url`. */
  lemma MatchHitIsStored(s: Storage, url: string)
    requires Match(s, url).Some?
    ensures exists n :: n in s.caches && url in s.caches[n] && s.caches[n][url] == Match(s, url).value
  {
    var i :| 0 <= i < |s.order| && Lookup(s, s.order[i], url) == Match(s, url);
    var n := s.order[i];
    assert n in s.caches && url in s.caches[n];
  }

  /** When no cache but `name` exists, `caches.match` is a lookup in `name` alone. */
  lemma MatchInSoleCache(s: Storage, name: string, url: string)
    requires Valid(s)
    requires forall n :: n in s.caches ==> n == name
    ensures Match(s, url) == Lookup(s, name, url)
  {
    MatchMissIffAbsent(s, url);
    if Match(s, url).Some? {
      var i :| 0 <= i < |s.order| && Lookup(s, s.order[i], url) == Match(s, url);
      assert s.order[i] == name;
    }
  }

  /** When `url` is stored in `name` and in no other cache, `caches.match` finds that entry. */
  lemma MatchOnlyHolder(s: Storage, name: string, url: string)
    requires Valid(s)
    requires name in s.caches && url in s.caches[name]
    requires forall n :: n in s.caches && n != name ==> url !in s.caches[n]
    ensures Match(s, url) == Some(s.caches[name][url])
  {
    MatchMissIffAbsent(s, url);
    var i :| 0 <= i < |s.order| && Lookup(s, s.order[i], url) == Match(s, url);
    assert s.order[i] == name;
  }

  /** What one network fetch yields: a response (of any status), or a network error. */
  datatype NetOutcome = Delivered(resp: Response) | NetFail

  /** The network as seen by one batch of fetches: one outcome per URL. */
  type Network = string -> NetOutcome

  /** `cache.addAll` keeps a fetched response only when it is ok and not 206 Partial Content. */
  predicate AddAllAccepts(o: NetOutcome) {
    o.Delivered? && o.resp.Ok() && PutAccepts(o.resp)
  }

  /**
   `cache.addAll(urls)` on the partition `p`, all or nothing: when every fetch yields an
   acceptable response, every URL is stored with its response and the rest of `p` is kept;
   otherwise the operation rejects (`None`) and `p` is left as it was.
   */
  function AddAll(p: Partition, urls: seq<string>, net: Network): (r: Option<Partition>)
    ensures r.Some? <==> forall u :: u in urls ==> AddAllAccepts(net(u))
    ensures r.Some? ==> r.value.Keys == p.Keys + (set u | u in urls)
    ensures r.Some? ==> forall u :: u in urls ==> r.value[u] == net(u).resp
    ensures r.Some? ==> forall k :: k in p && k !in urls ==> r.value[k] == p[k]
    decreases |urls|
  {
    if |urls| == 0 then Some(p)
    else if !AddAllAccepts(net(urls[0])) then None
    else
      var r := AddAll(p[urls[0] := net(urls[0]).resp], urls[1..], net);
      assert forall u :: u in urls <==> u == urls[0] || u in urls[1..];
      r
  }
}

=== FILE: optional.dfy ===
/** A value that may be absent: a cache miss, a missing upload, a missing field. */
module Optional {

  datatype Option<+T> = None | Some(value: T)
}

=== FILE: service_worker.dfy ===
/**
 The service worker's three event handlers, each one atomic transition of the Cache Storage:
 `install` opens the versioned cache and adds the app shell, `activate` deletes every other
 cache, and `fetch` routes one request (network only, network first with the cached root page
 as fallback, or cache first with opportunistic caching). The network's answer is an input.
 */
module ServiceWorker {
  import opened Optional
  import opened Text
  import opened CacheStorage

  /** The one cache generation this worker version owns. */
  const CacheName: string := "vision-ai-cache-v1.2"

  /** The root page, resolved against the worker's origin. */
  function RootUrl(origin: string): string {
    origin + "/"
  }

  /** The same-origin entries of the app shell after the root page, as paths. */
  const ShellPaths: seq<string> :=
    ["/static/css/style.css", "/static/js/script.js", "/static/icons/icon-192x192.png",
     "/static/icons/icon-512x512.png", "/manifest.json"]

  /** The two external stylesheets of the app shell. */
  const ExternalStyles: seq<string> :=
    ["https://cdnjs.cloudflare.com/ajax/libs/font-awesome/6.0.0/css/all.min.css",
     "https://fonts.googleapis.com/css2?family=Roboto:wght@300;400;500;700&display=swap"]

  /**
   The app shell: the root page and the other same-origin paths resolved against `origin`, then
   the external styles; the six same-origin entries all start with the origin.
   */
  function UrlsToCache(origin: string): (urls: seq<string>)
    ensures |urls| == 8 && urls[0] == RootUrl(origin)
    ensures forall i :: 0 <= i < 6 ==> StartsWith(urls[i], origin)
  {
    assert forall p :: StartsWith(origin + p, origin) by {
      forall p ensures StartsWith(origin + p, origin) {
        assert (origin + p)[..|origin|] == origin;
      }
    }
    [RootUrl(origin)]
      + seq(|ShellPaths|, i requires 0 <= i < |ShellPaths| => origin + ShellPaths[i])
      + ExternalStyles
  }

  /** What the worker's own cache held before an operation (nothing when it did not exist). */
  function Prior(s: Storage): Partition {
    if CacheName in s.caches then s.caches[CacheName] else map[]
  }

  // ---------------------------------------------------------------------------------------
  // install
  // ---------------------------------------------------------------------------------------

  /** The storage after `install`, and whether `skipWaiting` was requested. */
  datatype InstallOutcome = InstallOutcome(storage: Storage, skipWaiting: bool)

  /**
   The `addAll` step of the install handler over a given `shell` list: the cache `CacheName`
   is always opened, then `addAll` runs on `shell` over what the cache held. On success its
   result becomes the cache and `skipWaiting` is requested; a failure is caught and leaves the
   opened cache as it was. No other cache is touched either way.
   */
  function InstallShell(s: Storage, shell: seq<string>, net: Network): (r: InstallOutcome)
    ensures CacheName in r.storage.caches
    ensures SameExcept(s, r.storage, CacheName)
    ensures Valid(s) ==> Valid(r.storage)
    ensures r.skipWaiting <==> forall u :: u in shell ==> AddAllAccepts(net(u))
    ensures r.skipWaiting ==> forall u :: u in shell ==> Lookup(r.storage, CacheName, u) == Some(net(u).resp)
    ensures r.skipWaiting ==> r.storage.caches[CacheName].Keys == Prior(s).Keys + (set u | u in shell)
    ensures r.skipWaiting ==>
              forall k :: k in Prior(s) && k !in shell ==> r.storage.caches[CacheName][k] == Prior(s)[k]
    ensures !r.skipWaiting ==> r.storage.caches[CacheName] == Prior(s)
  {
    var cacheReady := Open(s, CacheName);
    match AddAll(cacheReady.caches[CacheName], shell, net)
    case None => InstallOutcome(cacheReady, false)
    case Some(p) => InstallOutcome(Storage(cacheReady.order, cacheReady.caches[CacheName := p]), true)
  }

  /**
   The install handler: `InstallShell` on the app shell of the worker's origin. A successful
   install has stored the root page, which the navigation fallback relies on.
   */
  function Install(s: Storage, origin: string, net: Network): (r: InstallOutcome)
    ensures Valid(s) ==> Valid(r.storage)
    ensures r.skipWaiting ==>
              AddAllAccepts(net(RootUrl(origin))) &&
              Lookup(r.storage, CacheName, RootUrl(origin)) == Some(net(RootUrl(origin)).resp)
  {
    assert UrlsToCache(origin)[0] == RootUrl(origin);
    InstallShell(s, UrlsToCache(origin), net)
  }

  /** Installing again keeps the key set of the worker's cache: keys are rewritten, never lost or added. */
  lemma ReinstallKeepsKeys(s: Storage, shell: seq<string>, first: Network, second: Network)
    requires InstallShell(s, shell, first).skipWaiting
    ensures var once := InstallShell(s, shell, first).storage;
            InstallShell(once, shell, second).storage.caches[CacheName].Keys == once.caches[CacheName].Keys
  {
  }

  /** A failed install leaves every `caches.match` answer as it was before the install. */
  lemma FailedInstallKeepsServing(s: Storage, shell: seq<string>, net: Network, url: string)
    requires !InstallShell(s, shell, net).skipWaiting
    ensures Match(InstallShell(s, shell, net).storage, url) == Match(s, url)
  {
    OpenKeepsMatch(s, CacheName, url);
  }

  // ---------------------------------------------------------------------------------------
  // activate
  // ---------------------------------------------------------------------------------------

  /** Deletes, one after the other, every cache of `names` that is not `CacheName`. */
  function DeleteStale(s: Storage, names: seq<string>): (s': Storage)
    ensures s'.caches.Keys == s.caches.Keys - (set n | n in names && n != CacheName)
    ensures forall n :: n in s'.caches ==> s'.caches[n] == s.caches[n]
    ensures Valid(s) ==> Valid(s')
    decreases |names|
  {
    if |names| == 0 then s
    else
      var s1 := if names[0] != CacheName then Delete(s, names[0]) else s;
      var r := DeleteStale(s1, names[1..]);
      assert forall n :: n in names <==> n == names[0] || n in names[1..];
      r
  }

  /**
   The activate handler: every cache that `caches.keys()` lists under another name is deleted,
   so only `CacheName` can remain, and its contents (if it exists) are untouched.
   */
  function Activate(s: Storage): (s': Storage)
    requires Valid(s)
    ensures Valid(s')
    ensures forall n :: n in s'.caches ==> n == CacheName
    ensures CacheName in s'.caches <==> CacheName in s.caches
    ensures s'.caches.Keys <= s.caches.Keys
    ensures CacheName in s.caches ==> s'.caches[CacheName] == s.caches[CacheName]
  {
    DeleteStale(s, s.order)
  }

  /** After activation `caches.match` answers from the worker's own cache only. */
  lemma ActivatedMatchIsOwnCache(s: Storage, url: string)
    requires Valid(s)
    ensures Match(Activate(s), url) == Lookup(s, CacheName, url)
  {
    MatchInSoleCache(Activate(s), CacheName, url);
  }

  // ---------------------------------------------------------------------------------------
  // fetch
  // ---------------------------------------------------------------------------------------

  /** An intercepted request: its method, its absolute URL, and whether its mode is `navigate`. */
  datatype Request = Request(httpMethod: string, url: string, isNavigation: bool)

  /** What the page receives: a response, or a network error. */
  datatype FetchResult = Respond(resp: Response) | NetworkError

  /** The storage after the fetch handler, and what it answered. */
  datatype FetchStep = FetchStep(storage: Storage, result: FetchResult)

  /** A fetch promise handed straight to `respondWith`: a rejection becomes a network error. */
  function FromNetwork(net: NetOutcome): FetchResult {
    match net
    case Delivered(resp) => Respond(resp)
    case NetFail => NetworkError
  }

  /** A `caches.match` promise handed to `respondWith`: a miss resolves to `undefined`, a network error. */
  function FromCache(hit: Option<Response>): FetchResult {
    match hit
    case Some(resp) => Respond(resp)
    case None => NetworkError
  }

  /**
   The origins whose responses may be cached on the fly: the URL starts with the worker's
   origin, or contains `cdnjs` or `gstatic` anywhere (substring tests, not host tests).
   */
  predicate AllowListed(origin: string, url: string) {
    StartsWith(url, origin) || Includes(url, "cdnjs") || Includes(url, "gstatic")
  }

  /** The allow-list is a prefix test on the origin and two substring tests. */
  lemma AllowListedIff(origin: string, url: string)
    ensures AllowListed(origin, url) <==>
              || StartsWith(url, origin)
              || (exists i :: OccursAt(url, "cdnjs", i))
              || (exists i :: OccursAt(url, "gstatic", i))
  {
    IncludesIffOccurs(url, "cdnjs");
    IncludesIffOccurs(url, "gstatic");
  }

  /**
   The substring tests admit any host: a URL that merely mentions `cdnjs` or `gstatic`, or
   whose host only starts with the origin's host, is allow-listed.
   */
  lemma AllowListAdmitsLookalikes(origin: string, pre: string, post: string)
    ensures AllowListed(origin, pre + "cdnjs" + post)
    ensures AllowListed(origin, pre + "gstatic" + post)
    ensures AllowListed(origin, origin + post)
  {
    IncludesInfix(pre, "cdnjs", post);
    IncludesInfix(pre, "gstatic", post);
    assert (origin + post)[..|origin|] == origin;
  }

  /** The test guarding the opportunistic `put`: an ok response from an allowed URL. */
  predicate ShouldPopulate(origin: string, url: string, resp: Response) {
    resp.Ok() && AllowListed(origin, url)
  }

  /**
   `caches.open(CacheName).then(cache => cache.put(url, resp))`, not awaited: the cache is
   (re)created if missing and gets the entry unless `put` rejects it; any other entry and any
   other cache is kept.
   */
  function Populate(s: Storage, url: string, resp: Response): (s': Storage)
    ensures CacheName in s'.caches
    ensures s'.order == if CacheName in s.caches then s.order else s.order + [CacheName]
    ensures SameExcept(s, s', CacheName)
    ensures Lookup(s', CacheName, url) == (if PutAccepts(resp) then Some(resp) else Lookup(s, CacheName, url))
    ensures forall k :: k != url ==> Lookup(s', CacheName, k) == Lookup(s, CacheName, k)
    ensures Valid(s) ==> Valid(s')
  {
    var cacheReady := Open(s, CacheName);
    match Put(cacheReady, CacheName, url, resp)
    case Some(written) => written
    case None => cacheReady
  }

  /**
   The fetch handler, as one transition.
   - A method other than GET goes to the network; the cache is neither read nor written.
   - A navigation is network first: the network's response as it is, and on a network error
     the root page as `caches.match` finds it in any cache; it never writes.
   - Any other GET is cache first: a hit (in any cache) is answered without the network; a miss
     is answered with the network's response; when it is ok and allow-listed `CacheName` is
     opened, and the response is stored under the URL unless `put` rejects it, in which case
     nothing is stored under the URL; a network error is answered with a network error and
     writes nothing.
   */
  function HandleFetch(s: Storage, origin: string, req: Request, net: NetOutcome): (st: FetchStep)
    requires Valid(s)
    ensures Valid(st.storage)
    ensures req.httpMethod != "GET" ==> st == FetchStep(s, FromNetwork(net))
    ensures req.httpMethod == "GET" && req.isNavigation ==> st.storage == s
    ensures req.httpMethod == "GET" && req.isNavigation && net.Delivered? ==> st.result == Respond(net.resp)
    ensures req.httpMethod == "GET" && req.isNavigation && net.NetFail? ==>
              st.result == FromCache(Match(s, RootUrl(origin)))
    ensures req.httpMethod == "GET" && !req.isNavigation && Match(s, req.url).Some? ==>
              st == FetchStep(s, Respond(Match(s, req.url).value))
    ensures req.httpMethod == "GET" && !req.isNavigation && Match(s, req.url).None? && net.NetFail? ==>
              st == FetchStep(s, NetworkError)
    ensures req.httpMethod == "GET" && !req.isNavigation && Match(s, req.url).None? && net.Delivered? ==>
              && st.result == Respond(net.resp)
              && Lookup(st.storage, CacheName, req.url) ==
                   (if ShouldPopulate(origin, req.url, net.resp) && PutAccepts(net.resp)
                    then Some(net.resp) else None)
              && (ShouldPopulate(origin, req.url, net.resp) ==> st.storage == Populate(s, req.url, net.resp))
              && (forall k :: k != req.url ==> Lookup(st.storage, CacheName, k) == Lookup(s, CacheName, k))
              && SameExcept(s, st.storage, CacheName)
              && (!ShouldPopulate(origin, req.url, net.resp) ==> st.storage == s)
  {
    if req.httpMethod != "GET" then FetchStep(s, FromNetwork(net))
    else if req.isNavigation then
      match net
      case Delivered(resp) => FetchStep(s, Respond(resp))
      case NetFail => FetchStep(s, FromCache(Match(s, RootUrl(origin))))
    else
      match Match(s, req.url)
      case Some(cached) => FetchStep(s, Respond(cached))
      case None =>
        match net
        case NetFail => FetchStep(s, NetworkError)
        case Delivered(resp) =>
          MatchMissIffAbsent(s, req.url);
          var s' := if ShouldPopulate(origin, req.url, resp) then Populate(s, req.url, resp) else s;
          FetchStep(s', Respond(resp))
  }

  /** The opportunistic write changes no other URL's `caches.match` answer. */
  lemma PopulateKeepsOtherMatches(s: Storage, url: string, resp: Response, k: string)
    requires k != url
    ensures Match(Populate(s, url, resp), k) == Match(s, k)
  {
    var s' := Populate(s, url, resp);
    assert forall n :: Lookup(s', n, k) == Lookup(s, n, k);
    if CacheName !in s.caches {
      MatchInAppendMiss(s', s.order, CacheName, k);
    }
    MatchInSameLookups(s, s', s.order, k);
  }

  /**
   The fetch handler writes at most the requested URL: every other URL's `caches.match` answer
   is the same afterwards.
   */
  lemma FetchKeepsOtherMatches(s: Storage, origin: string, req: Request, net: NetOutcome, k: string)
    requires Valid(s) && k != req.url
    ensures Match(HandleFetch(s, origin, req, net).storage, k) == Match(s, k)
  {
    if req.httpMethod == "GET" && !req.isNavigation && Match(s, req.url).None? && net.Delivered?
       && ShouldPopulate(origin, req.url, net.resp) {
      PopulateKeepsOtherMatches(s, req.url, net.resp, k);
    }
  }

  // ---------------------------------------------------------------------------------------
  // lifecycle scenarios
  // ---------------------------------------------------------------------------------------

  /** An asset fetched after a miss and stored is, next time, answered from the cache offline or not. */
  lemma PopulatedAssetServedFromCache(
    s: Storage, origin: string, req: Request, resp: Response, later: NetOutcome)
    requires Valid(s)
    requires req.httpMethod == "GET" && !req.isNavigation && Match(s, req.url).None?
    requires ShouldPopulate(origin, req.url, resp) && PutAccepts(resp)
    ensures var after := HandleFetch(s, origin, req, Delivered(resp)).storage;
            HandleFetch(after, origin, req, later) == FetchStep(after, Respond(resp))
  {
    var after := HandleFetch(s, origin, req, Delivered(resp)).storage;
    MatchMissIffAbsent(s, req.url);
    MatchOnlyHolder(after, CacheName, req.url);
  }

  /**
   After a successful install and the following activation, with the network down, every
   shell URL is answered from the cache, a navigation is answered with the installed root
   page, and a URL that neither the shell nor the earlier contents of `CacheName` held misses,
   whatever older generations held it.
   */
  lemma InstalledShellServedOffline(s: Storage, origin: string, shell: seq<string>, net: Network, url: string)
    requires Valid(s)
    requires RootUrl(origin) in shell
    requires InstallShell(s, shell, net).skipWaiting
    ensures var active := Activate(InstallShell(s, shell, net).storage);
            && (forall u :: u in shell ==>
                  HandleFetch(active, origin, Request("GET", u, false), NetFail) ==
                    FetchStep(active, Respond(net(u).resp)))
            && HandleFetch(active, origin, Request("GET", url, true), NetFail) ==
                 FetchStep(active, Respond(net(RootUrl(origin)).resp))
            && (url !in Prior(s) && url !in shell ==> Match(active, url).None?)
  {
    var installed := InstallShell(s, shell, net).storage;
    var active := Activate(installed);
    forall u | u in shell
      ensures HandleFetch(active, origin, Request("GET", u, false), NetFail) ==
                FetchStep(active, Respond(net(u).resp))
    {
      ActivatedMatchIsOwnCache(installed, u);
    }
    ActivatedMatchIsOwnCache(installed, RootUrl(origin));
    ActivatedMatchIsOwnCache(installed, url);
  }

  /** The worker's own shell holds the root page, so the offline navigation fallback is installed. */
  lemma WorkerShellServedOffline(s: Storage, origin: string, net: Network, url: string)
    requires Valid(s)
    requires Install(s, origin, net).skipWaiting
    ensures var active := Activate(Install(s, origin, net).storage);
            HandleFetch(active, origin, Request("GET", url, true), NetFail) ==
              FetchStep(active, Respond(net(RootUrl(origin)).resp))
  {
    assert UrlsToCache(origin)[0] == RootUrl(origin);
    InstalledShellServedOffline(s, origin, UrlsToCache(origin), net, url);
  }

  /**
   The install handler swallows the `addAll` error, so the worker still activates. It then
   serves exactly what its own cache held before the install, and no older generation.
   */
  lemma FailedInstallThenActivate(s: Storage, shell: seq<string>, net: Network, url: string)
    requires Valid(s)
    requires !InstallShell(s, shell, net).skipWaiting
    ensures Match(Activate(InstallShell(s, shell, net).storage), url) ==
              (if url in Prior(s) then Some(Prior(s)[url]) else None)
  {
    ActivatedMatchIsOwnCache(InstallShell(s, shell, net).storage, url);
  }

  /**
   A failed first install followed by the activation leaves nothing to fall back on: an
   offline navigation gets a network error.
   */
  lemma FailedFirstInstallHasNoFallback(s: Storage, origin: string, net: Network, url: string)
    requires Valid(s) && CacheName !in s.caches
    requires !Install(s, origin, net).skipWaiting
    ensures var active := Activate(Install(s, origin, net).storage);
            HandleFetch(active, origin, Request("GET", url, true), NetFail) == FetchStep(active, NetworkError)
  {
    FailedInstallThenActivate(s, UrlsToCache(origin), net, RootUrl(origin));
  }

  /**
   The navigation fallback `caches.match('/')` is not restricted to `CacheName`: it searches
   every cache in creation order, so on a storage that still lists an older generation first,
   that generation's root page is the answer. Only the activate handler's deletion keeps such
   a storage from reaching this worker's fetch handler.
   */
  lemma StaleGenerationAnswersFallback(origin: string, stale: Response, current: Response, url: string)
    requires stale != current
    ensures var s := Storage(["vision-ai-cache-v1.1", CacheName],
                             map["vision-ai-cache-v1.1" := map[RootUrl(origin) := stale],
                                 CacheName := map[RootUrl(origin) := current]]);
            Valid(s) && HandleFetch(s, origin, Request("GET", url, true), NetFail).result == Respond(stale)
  {
    var s := Storage(["vision-ai-cache-v1.1", CacheName],
                     map["vision-ai-cache-v1.1" := map[RootUrl(origin) := stale],
                         CacheName := map[RootUrl(origin) := current]]);
    assert "vision-ai-cache-v1.1" != CacheName by {
      assert "vision-ai-cache-v1.1"[19] != CacheName[19];
    }
    assert Lookup(s, s.order[0], RootUrl(origin)) == Some(stale);
  }
}

=== FILE: text.dfy ===
/**
 String rules shared by the service worker (JavaScript `startsWith`, `includes`) and the
 Flask helpers (Python `rsplit(sep, 1)`, `lower()`, `strip()`), over strings as `seq<char>`.
 */
module Text {
  import opened Optional

  /** `prefix` is a prefix of `s` (JavaScript `startsWith`, Python `startswith`). */
  predicate StartsWith(s: string, prefix: string) {
    |prefix| <= |s| && s[..|prefix|] == prefix
  }

  /** `sub` occurs in `s` at offset `i`. */
  ghost predicate OccursAt(s: string, sub: string, i: int) {
    0 <= i && i + |sub| <= |s| && s[i..i + |sub|] == sub
  }

  /** JavaScript `String.prototype.includes`: a left-to-right scan for `sub`. */
  predicate Includes(s: string, sub: string)
    decreases |s|
  {
    StartsWith(s, sub) || (0 < |s| && Includes(s[1..], sub))
  }

  /** The scan finds `sub` exactly when it occurs at some offset. */
  lemma {:induction false} IncludesIffOccurs(s: string, sub: string)
    ensures Includes(s, sub) <==> exists i :: OccursAt(s, sub, i)
    decreases |s|
  {
    if StartsWith(s, sub) {
      assert OccursAt(s, sub, 0);
    } else if |s| == 0 {
      assert 0 < |sub|;
    } else {
      IncludesIffOccurs(s[1..], sub);
      if i :| OccursAt(s[1..], sub, i) {
        assert s[1..][i..i + |sub|] == s[i + 1..i + 1 + |sub|];
        assert OccursAt(s, sub, i + 1);
      }
      if i :| OccursAt(s, sub, i) {
        assert i != 0;
        assert s[1..][i - 1..i - 1 + |sub|] == s[i..i + |sub|];
        assert OccursAt(s[1..], sub, i - 1);
      }
    }
  }

  /** An occurrence anywhere inside a string makes `Includes` true. */
  lemma IncludesInfix(pre: string, sub: string, post: string)
    ensures Includes(pre + sub + post, sub)
  {
    var s := pre + sub + post;
    assert s[|pre|..|pre| + |sub|] == sub;
    assert OccursAt(s, sub, |pre|);
    IncludesIffOccurs(s, sub);
  }

  /** The position of the last `c` in `s`, if any. */
  function LastIndex(s: string, c: char): (r: Option<nat>)
    ensures r.None? <==> c !in s
    ensures r.Some? ==> r.value < |s| && s[r.value] == c && c !in s[r.value + 1..]
    decreases |s|
  {
    if |s| == 0 then None
    else if s[|s| - 1] == c then Some(|s| - 1)
    else
      var r := LastIndex(s[..|s| - 1], c);
      assert r.Some? ==> s[r.value + 1..] == s[..|s| - 1][r.value + 1..] + [s[|s| - 1]];
      assert c in s ==> c in s[..|s| - 1] by {
        if c in s {
          var k :| 0 <= k < |s| && s[k] == c;
          assert s[..|s| - 1][k] == c;
        }
      }
      r
  }

  /**
   Python `s.rsplit(sep, 1)`: the whole string when `sep` does not occur, otherwise the part
   before the last `sep` and the part after it.
   */
  function RSplitOnce(s: string, sep: char): (parts: seq<string>)
    ensures sep !in s ==> parts == [s]
    ensures sep in s ==> |parts| == 2 && s == parts[0] + [sep] + parts[1] && sep !in parts[1]
  {
    match LastIndex(s, sep)
    case None => [s]
    case Some(k) =>
      assert s == s[..k] + [sep] + s[k + 1..];
      [s[..k], s[k + 1..]]
  }

  /** The part after the last `sep`, or nothing when `sep` does not occur. */
  function AfterLast(s: string, sep: char): (tail: string)
    ensures sep in s ==> |tail| < |s| && s[|s| - |tail| - 1] == sep && tail == s[|s| - |tail|..]
    ensures sep !in s ==> tail == ""
    ensures sep !in tail
  {
    if sep in s then RSplitOnce(s, sep)[1] else ""
  }

  /** A separator followed only by separator-free text is the last one. */
  lemma LastIndexAt(s: string, c: char, k: nat)
    requires k < |s| && s[k] == c && c !in s[k + 1..]
    ensures LastIndex(s, c) == Some(k)
  {
    var j := LastIndex(s, c).value;
    assert forall m :: k < m < |s| ==> s[m] != c by {
      forall m | k < m < |s| ensures s[m] != c {
        assert s[k + 1..][m - k - 1] == s[m];
      }
    }
    assert forall m :: j < m < |s| ==> s[m] != c by {
      forall m | j < m < |s| ensures s[m] != c {
        assert s[j + 1..][m - j - 1] == s[m];
      }
    }
  }

  /** Splitting at the last separator undoes joining with a separator-free tail. */
  lemma RSplitOnceOfJoin(head: string, sep: char, tail: string)
    requires sep !in tail
    ensures RSplitOnce(head + [sep] + tail, sep) == [head, tail]
  {
    var s := head + [sep] + tail;
    assert s[|head| + 1..] == tail;
    LastIndexAt(s, sep, |head|);
    assert s[..|head|] == head;
  }

  /** ASCII lower-casing of one character. */
  function LowerChar(c: char): char {
    if 'A' <= c <= 'Z' then (c as int + 32) as char else c
  }

  /**
   Python `lower()` restricted to ASCII letters: each upper-case letter becomes the lower-case
   letter at the same place in the alphabet, no upper-case letter is left, nothing else changes.
   */
  function Lower(s: string): (r: string)
    ensures |r| == |s|
    ensures forall i :: 0 <= i < |r| ==> !('A' <= r[i] <= 'Z')
    ensures forall i :: 0 <= i < |s| && !('A' <= s[i] <= 'Z') ==> r[i] == s[i]
    ensures forall i :: 0 <= i < |s| && 'A' <= s[i] <= 'Z' ==>
              'a' <= r[i] <= 'z' && r[i] as int - 'a' as int == s[i] as int - 'A' as int
  {
    seq(|s|, i requires 0 <= i < |s| => LowerChar(s[i]))
  }

  /** Lower-casing twice is lower-casing once. */
  lemma LowerIdempotent(s: string)
    ensures Lower(Lower(s)) == Lower(s)
  {
    var r := Lower(s);
    assert forall i :: 0 <= i < |r| ==> Lower(r)[i] == r[i];
  }

  /** Python's `str.isspace` for one character (the CPython whitespace table). */
  predicate IsSpace(c: char) {
    || ('\t' <= c <= '\r')
    || ('\U{1C}' <= c <= ' ')
    || c == '\U{85}' || c == '\U{A0}' || c == '\U{1680}'
    || ('\U{2000}' <= c <= '\U{200A}')
    || c == '\U{2028}' || c == '\U{2029}' || c == '\U{202F}' || c == '\U{205F}' || c == '\U{3000}'
  }

  /** Python `lstrip()`: drops leading whitespace and nothing else. */
  function TrimStart(s: string): (r: string)
    ensures |r| <= |s| && r == s[|s| - |r|..]
    ensures forall i :: 0 <= i < |s| - |r| ==> IsSpace(s[i])
    ensures |r| > 0 ==> !IsSpace(r[0])
    decreases |s|
  {
    if |s| > 0 && IsSpace(s[0]) then TrimStart(s[1..]) else s
  }

  /** Python `rstrip()`: drops trailing whitespace and nothing else. */
  function TrimEnd(s: string): (r: string)
    ensures |r| <= |s| && r == s[..|r|]
    ensures forall i :: |r| <= i < |s| ==> IsSpace(s[i])
    ensures |r| > 0 ==> !IsSpace(r[|r| - 1])
    decreases |s|
  {
    if |s| > 0 && IsSpace(s[|s| - 1]) then TrimEnd(s[..|s| - 1]) else s
  }

  /** Python `strip()`: neither end of the result is whitespace. */
  function Strip(s: string): (r: string)
    ensures |r| == 0 || (!IsSpace(r[0]) && !IsSpace(r[|r| - 1]))
    ensures |r| <= |s|
  {
    var t := TrimStart(s);
    assert |TrimEnd(t)| > 0 ==> TrimEnd(t)[0] == t[0];
    TrimEnd(t)
  }

  /** `r` is the slice of `s` at offset `lo`, and every character of `s` outside it is whitespace. */
  ghost predicate SpaceFramed(s: string, lo: int, r: string) {
    && 0 <= lo && lo + |r| <= |s|
    && r == s[lo..lo + |r|]
    && (forall i :: 0 <= i < lo ==> IsSpace(s[i]))
    && (forall i :: lo + |r| <= i < |s| ==> IsSpace(s[i]))
  }

  /**
   `strip()` removes a whitespace prefix and a whitespace suffix and nothing else; with the
   ends of its result not being whitespace, both removed parts are as long as possible.
   */
  lemma StripRemovesOnlyWhitespace(s: string)
    ensures exists lo :: SpaceFramed(s, lo, Strip(s))
  {
    var t := TrimStart(s);
    assert Strip(s) == TrimEnd(t);
    TrimsFrame(s, t, TrimEnd(t));
  }

  /**
   Cutting whitespace off the front of `s` and then off the back of the rest leaves a slice of
   `s` framed by whitespace.
   */
  lemma TrimsFrame(s: string, t: string, r: string)
    requires |t| <= |s| && t == s[|s| - |t|..] && forall i :: 0 <= i < |s| - |t| ==> IsSpace(s[i])
    requires |r| <= |t| && r == t[..|r|] && forall i :: |r| <= i < |t| ==> IsSpace(t[i])
    ensures SpaceFramed(s, |s| - |t|, r)
  {
    var lo := |s| - |t|;
    assert r == s[lo..lo + |r|];
    forall i | lo + |r| <= i < |s| ensures IsSpace(s[i]) {
      assert s[i] == t[i - lo];
    }
  }

  /** A string that neither starts nor ends with whitespace is its own strip. */
  lemma StripKeepsTrimmed(s: string)
    requires |s| == 0 || (!IsSpace(s[0]) && !IsSpace(s[|s| - 1]))
    ensures Strip(s) == s
  {
    assert TrimStart(s) == s;
    calc {
      Strip(s);
      TrimEnd(TrimStart(s));
      TrimEnd(s);
      s;
    }
  }

  /** Stripping twice is stripping once. */
  lemma StripIdempotent(s: string)
    ensures Strip(Strip(s)) == Strip(s)
  {
    StripKeepsTrimmed(Strip(s));
  }
}

=== FILE: uploads.dfy ===
/**
 Upload validation of the Flask back end: the extension whitelist and the checks and name
 derivation that precede saving an uploaded image.
 */
module Uploads {
  import opened Optional
  import opened Text

  const AllowedExtensions: set<string> := {"png", "jpg", "jpeg", "gif", "webp"}

  /** `allowed_file`: the name has a `.` and the lower-cased text after the last `.` is whitelisted. */
  predicate AllowedFile(filename: string) {
    '.' in filename && Lower(RSplitOnce(filename, '.')[1]) in AllowedExtensions
  }

  /** Only the segment after the last `.` decides, and only through its lower-cased form. */
  lemma OnlyLastSegmentMatters(head: string, ext: string)
    requires '.' !in ext
    ensures AllowedFile(head + "." + ext) <==> Lower(ext) in AllowedExtensions
  {
    RSplitOnceOfJoin(head, '.', ext);
  }

  /** `allowed_file` holds exactly when some `.` is followed by a dot-free whitelisted extension. */
  lemma AllowedFileIff(filename: string)
    ensures AllowedFile(filename) <==>
              exists i :: 0 <= i < |filename| && filename[i] == '.' && '.' !in filename[i + 1..] &&
                          Lower(filename[i + 1..]) in AllowedExtensions
  {
    if AllowedFile(filename) {
      var parts := RSplitOnce(filename, '.');
      var i := |parts[0]|;
      assert filename[i] == '.' && filename[i + 1..] == parts[1];
    }
    if i :| 0 <= i < |filename| && filename[i] == '.' && '.' !in filename[i + 1..] &&
            Lower(filename[i + 1..]) in AllowedExtensions {
      LastIndexAt(filename, '.', i);
      assert RSplitOnce(filename, '.')[1] == filename[i + 1..];
    }
  }

  /** The reasons `process_uploaded_image` raises before saving anything. */
  datatype UploadError =
    | NoImageSelected   // "No image selected or file name is empty."
    | InvalidFileType   // "Invalid file type. Allowed: ..."
    | NoExtension       // "Could not determine file extension."

  /** The name the upload is saved under, or the error raised. */
  datatype UploadOutcome = Saved(name: string) | Rejected(error: UploadError)

  /** Lower-casing a whitelisted extension leaves it as it is. */
  lemma LowerKeepsAllowed(ext: string)
    requires ext in AllowedExtensions
    ensures Lower(ext) == ext
  {
  }

  /**
   The validation and naming steps of `process_uploaded_image`. `filename` is the upload's
   file name, `None` when no file or no name came with the request; `secureFilename` stands
   for Werkzeug's `secure_filename` and `uniqueId` for the text of a fresh `uuid4()`.
   A missing or empty name is rejected first, then a name `allowed_file` refuses; the
   "could not determine" branch is never reached, and the saved name is itself allowed.
   */
  function ProcessUploadedImage(filename: Option<string>, secureFilename: string -> string, uniqueId: string)
    : (r: UploadOutcome)
    ensures r == Rejected(NoImageSelected) <==> filename.None? || filename.value == ""
    ensures r == Rejected(InvalidFileType) <==>
              filename.Some? && filename.value != "" && !AllowedFile(filename.value)
    ensures r != Rejected(NoExtension)
    ensures r.Saved? <==> filename.Some? && filename.value != "" && AllowedFile(filename.value)
    ensures r.Saved? ==> AllowedFile(r.name)
  {
    if filename.None? || filename.value == "" then Rejected(NoImageSelected)
    else
      var f := filename.value;
      if !AllowedFile(f) then Rejected(InvalidFileType)
      else
        var parts := RSplitOnce(f, '.');
        var safeBase := if |parts| > 1 then secureFilename(parts[0]) else secureFilename(f);
        var ext0 := if |parts| > 1 then Lower(parts[1]) else "";
        var extension := if ext0 == "" && '.' in f then Lower(AfterLast(f, '.')) else ext0;
        if extension == "" then Rejected(NoExtension)
        else
          var name := safeBase + "_" + uniqueId + "." + extension;
          assert extension in AllowedExtensions;
          LowerKeepsAllowed(extension);
          OnlyLastSegmentMatters(safeBase + "_" + uniqueId, extension);
          Saved(name)
  }

  /** The saved name is `secure_filename(base) + "_" + id + "." + ext`, `ext` lower-cased. */
  lemma SavedNameShape(base: string, ext: string, secureFilename: string -> string, uniqueId: string)
    requires '.' !in ext && Lower(ext) in AllowedExtensions
    ensures ProcessUploadedImage(Some(base + "." + ext), secureFilename, uniqueId)
              == Saved(secureFilename(base) + "_" + uniqueId + "." + Lower(ext))
  {
    RSplitOnceOfJoin(base, '.', ext);
    OnlyLastSegmentMatters(base, ext);
  }
}
